=== FILE: README.md ===
# Regfuz in Dafny

Regfuz reads a small regular-expression pattern and writes out random strings that the
pattern should accept. This project models its core, `regfuz.py`, in two parts.

- **Parser** (`Regex.__parseRegExp` and `Regex.__parseCharExpr`). It strips the pattern
  and makes one left-to-right scan that builds a flat ROOT list:
  - `.` becomes ANY.
  - `[...]` becomes BRACKET, holding the characters its body lists: literals, `\x`
    escapes and inclusive `X-Y` ranges.
  - `*` and `+` wrap the last element in STAR or PLUS.
  - Any other character becomes CHAR.
- **Generator** (`generate_pattern`). It walks the tree:
  - CHAR yields its character.
  - ANY yields a code point from 0 to 255.
  - BRACKET yields one of its choices.
  - STAR and PLUS concatenate 0..maxRepeat (or 1..maxRepeat) samples of their child.
  - ROOT concatenates its children in order.

Modules, one per component:

| file | module | contents |
|---|---|---|
| `results.dfy` | `Results` | `Option` and `Result`; exceptions become `Failure` values |
| `tree.dfy` | `RegexTree` | code points, the `Node` datatype, the `Regex` record |
| `text.dfy` | `Text` | Python's `str.strip()` and the `str.isspace()` character set |
| `parser.dfy` | `Parser` | the top-level scan, the bracket sub-parser, the `Regex` constructor |
| `unparse.dfy` | `Unparse` | writing a tree back out as a pattern; parse-after-write round trips |
| `generator.dfy` | `Generator` | `generate_pattern` over an explicit sequence of random draws |
| `language.dfy` | `Language` | the language a tree denotes; the generator's soundness and completeness |
| `regfuz.dfy` | `Regfuz` | the end-to-end property and worked examples |

Characters are Unicode code points, the unit of a Python `str`. Python's randomness
becomes a sequence of natural numbers read from the front. Each draw is reduced into
the range the source asks `randint` or `choice` for, and an exhausted sequence keeps
drawing 0. The model therefore describes which outputs are possible, not how likely
they are.

Each `Language` lemma is about one `maxRepeat` bound. `Denotes(n, m, s)` says that `s`
belongs to the language of `n` when every quantifier repeats at most `m` times. Two
lemmas tie the generator to this relation:

- **Soundness** (`GenerateSound`): every sample lies in the language.
- **Completeness** (`GenerateComplete`): every word of the language is the sample for
  some draws.

Two behaviours of the code are easy to miss. The model follows the code:

- **Empty BRACKETs.** The parser accepts `[]` and reversed ranges such as `[z-a]`,
  which give an empty choice list. Only generation then fails, with `EmptyChoice`.
- **Nested quantifiers.** A quantifier right after another is not an error: `a**`
  parses to STAR(STAR(a)).

## Model

| member | source | states |
|---|---|---|
| `Text.Strip` | regfuz.py:28 | The result is the slice of the pattern between its first and last non-whitespace characters (Python's `isspace` set). Everything cut off is whitespace. The result is empty iff the pattern is all whitespace. |
| `Text.StripIdempotent` | regfuz.py:28 | Stripping twice gives the same result as stripping once. |
| `Parser.Find` | regfuz.py:37 | The result is the first index holding the character, or none iff the character does not occur. |
| `Parser.Range` | regfuz.py:84 | An `X-Y` range has `Y-X+1` code points if `X <= Y`, otherwise none. The k-th is `X+k`, so it is ascending and has no gaps. |
| `Parser.ParseBracket` | regfuz.py:61-91 | The only errors are a missing escaped character and an incomplete range. A body with no `\` and no `-` yields its own characters, in order. |
| `Parser.Quantify` | regfuz.py:44-49 | `*`/`+` fails iff no element precedes it. Otherwise the last element becomes STAR/PLUS of itself, the count is unchanged, and earlier elements are untouched. |
| `Parser.ParseFrom` | regfuz.py:31-56 | The corrected top-level scan. It has no contract of its own. `ParseFromShape`, `ParseClosedBracket`, `Unparse.ParseRenderNode` and `ScanAgreesWithParse` carry its meaning. |
| `Parser.ParseFromShape` | regfuz.py:31-56 | The scan never removes elements. A successful scan of non-empty text leaves at least one. Every element it adds is a legal top-level node: no nested ROOT, and no CHAR of `[`, `*`, `+` or `.`. |
| `Parser.Compile` | regfuz.py:22-59 | On success the tree is one ROOT of top-level nodes. It is matched iff the stripped pattern is non-empty, so blank patterns are unmatched. |
| `Parser.CompileIgnoresSurroundingSpace` | regfuz.py:26-28 | Whitespace around a pattern is ignored: every pattern compiles exactly as its stripped form does. |
| `Parser.ParseClosedBracket` | regfuz.py:35-43 | A `[body]` with no `]` inside the body adds exactly one BRACKET, holding what the body parses to, or it fails as the body does. The scan resumes after the first `]`. |
| `Parser.UnclosedBracketFails` | regfuz.py:35-43 | A text in which some `[` has no `]` after it never yields a tree, whatever comes before that `[`, including earlier closed brackets and `]`s. |
| `Parser.UnclosedBracketLoops` | regfuz.py:37-43 | As written, the loop on the pattern `[` is still running after any number of iterations: it resets to index 0 and keeps the new BRACKET. |
| `Parser.ScanAsWritten` | regfuz.py:31-56 | The top-level loop exactly as written, with a budget on its iterations. It has no contract of its own. `ScanAgreesWithParse` and `UnclosedBracketLoops` carry its meaning. |
| `Parser.ScanAgreesWithParse` | regfuz.py:31-56 | On a text where every `[` has a `]` after it, the loop as written agrees with the corrected scan when given one iteration per remaining character. The loop finishes with a list iff the scan returns that list, and it raises an error iff the scan fails with that error. |
| `Parser.CompileAgreesWithSource` | regfuz.py:22-59 | For every pattern whose stripped form closes all its brackets, the source's loop finishes iff `Compile` succeeds. On success both give the same ROOT children. |
| `Parser.NeverFinishesUnclosed` | regfuz.py:31-56 | As written, a text in which some `[` has no `]` after it never finishes, whatever the iteration budget: the loop either raises or is still running. Each pass reaches that `[` and goes back to index 0. |
| `Parser.UnclosedBracketRejected` | regfuz.py:37-43 | The corrected parser rejects `[` with `Unterminated`. |
| `Unparse.ItemStep` | regfuz.py:66-89 | One construct in front of a text adds exactly its own characters ahead of what the text yields: a literal (a `-` included) adds itself, `\x` adds `x`, and `X-Y` adds the whole range (`X` may be `-`). If the text fails, the longer body fails with the same error. The conditions are that neither a literal nor a range starts with `\`, which would be read as an escape, and that a literal is not followed by `-`, which would make it a range. |
| `Unparse.ParseBracketItems` | regfuz.py:67-89 | A body written as literals, `\x` escapes and `X-Y` ranges parses to exactly its characters: literals and escapes in source order, each range expanded in place. A `-` may be a literal or the start of a range. The body only has to avoid `\` as a literal or range start, and a literal followed by a `-`-led construct. |
| `Unparse.TrailingBackslashFails` | regfuz.py:73-77 | A well-formed body followed by a lone `\` fails with `MissingEscaped`. |
| `Unparse.TrailingDashFails` | regfuz.py:79-83 | A well-formed body followed by `X-` fails with `IncompleteRange`, for any `X` except `\`, `-` included (so `[--]` fails). The exception is a literal followed by `-`, because then the `-` closes a range. |
| `Unparse.ParseRenderNode` | regfuz.py:44-55 | Scanning the written form of an element appends exactly that element. This covers `.`, a plain character including `\`, a bracket holding no `]` (its choices are written escaped, and even an escaped `]` closes the bracket), and postfix quantifiers. `a**` nests as STAR(STAR(a)). |
| `Unparse.ParseRender` | regfuz.py:26-59 | Round trip: a list of printable elements, written out with no whitespace at either end, compiles to a ROOT holding exactly that list. It is matched iff the list is non-empty. |
| `Generator.Generate` | regfuz.py:113-141 | One sample of a node, with each random draw reduced into the range the source asks for. It has no contract of its own. `GenerateConsumes`, `Language.GenerateSound`, `Language.GenerateComplete` and `Language.GenerationTotalIffSafe` carry its meaning. |
| `Generator.GenerateTimes` | regfuz.py:130-141 | The repetition loop of STAR and PLUS. It has no contract of its own. `GenerateTimesConsumes`, `Language.GenerateTimesSound` and `Language.GenerateTimesComplete` carry its meaning. |
| `Generator.GenerateAll` | regfuz.py:125-129 | The ROOT loop over the children. It has no contract of its own. `GenerateAllConsumes`, `Language.GenerateAllSound` and `Language.GenerateAllComplete` carry its meaning. |
| `Generator.GenerateConsumes` | regfuz.py:113-141 | Generation takes draws only from the front. What remains is a suffix of the draws it was given. |
| `Language.GenerateSound` | regfuz.py:117-141 | Every sample lies in the language of its node: CHAR gives its character, ANY one code point of at most 255, BRACKET one of its choices, STAR 0..maxRepeat and PLUS 1..maxRepeat child words, ROOT its children's words in order. |
| `Language.GenerateComplete` | regfuz.py:117-141 | Every word of the node's language is produced by some draws. Those draws are read exactly, and any draws after them are left over. |
| `Language.ZeroBoundLanguage` | regfuz.py:130-141 | With `maxRepeat = 0`, STAR denotes only the empty string and PLUS denotes nothing. |
| `Language.GenerationTotalIffSafe` | regfuz.py:119-141 | Generation succeeds for every draw sequence iff no reachable BRACKET is empty and no PLUS is under a zero bound. |
| `Regfuz.SamplesSatisfyPattern` | regfuz.py:169-175 | Every sample generated from a compiled pattern lies in the language of its tree. |
| `Regfuz.DigitRange` | regfuz.py:79-85 | `[0-9]` compiles to one BRACKET of the ten digits, in ascending order. |
| `Regfuz.LeadingDashBody` | regfuz.py:79-88 | The body `-a` is the literal `-` followed by `a`. |
| `Regfuz.DashAfterRangeBody` | regfuz.py:79-88 | The body `a-c-` is the range `a`..`c` followed by a literal `-`. |
| `Regfuz.DashRangeBody` | regfuz.py:79-85 | The body `--/` is the range from `-` to `/`. The body `--` fails with `IncompleteRange`. |
| `Regfuz.EscapedChoices` | regfuz.py:73-78 | `[\.\*]` compiles to one BRACKET holding `.` and `*`. |
| `Regfuz.QuantifierScope` | regfuz.py:44-46 | `ab*` compiles to CHAR(a) followed by STAR(CHAR(b)). |
| `Regfuz.ZeroBoundStar` | regfuz.py:130-135 | With `maxRepeat = 0`, the tree of `ab*` always yields exactly `a`. |
| `Regfuz.EscapedCloseBracket` | regfuz.py:37-41 | In `[\]]` the first `]` closes the bracket. The body `\` then fails with `MissingEscaped`. |
| `Regfuz.LeadingQuantifier` | regfuz.py:44-46 | `*abc` fails with `NothingToRepeat`. |
| `Regfuz.WildcardRange` | regfuz.py:118-119 | ANY yields one code point of at most 255. A draw of 7 yields the control character 7. |
| `Regfuz.BlankPattern` | regfuz.py:28-59 | A whitespace-only pattern compiles to an empty ROOT that is not matched. |

## Findings

| source | as written | input that shows it | evidently intended | confidence | as-written member | corrected member |
|---|---|---|---|---|---|---|
| regfuz.py:37-43 | No `]` after a `[` makes `find` return -1, so `i` becomes 0 and the scan restarts forever | the pattern `[` | reject the pattern as malformed | high; not executed | `Parser.UnclosedBracketLoops` | `Parser.UnclosedBracketFails` |

`Parser.ScanAsWritten` follows the source's index loop, with a budget on the number of
iterations. `Parser.UnclosedBracketLoops` shows that the pattern `[` is still running
whatever the budget. The rest of the model uses `Parser.ParseFrom`, which returns
`Unterminated` instead. It first parses the same text `regex[i+1:-1]`, so an error the
source raises from that slice before looping is reported unchanged.
`Parser.UnclosedBracketFails` shows that no text with an unclosed `[` ever yields a tree, and
`Parser.UnclosedBracketRejected` shows that the pattern `[` itself is rejected with `Unterminated`.
`Parser.NeverFinishesUnclosed` shows that the loop as written never finishes on any such
text, not just on `[`. On every other text, where each `[` has a `]` after it,
`Parser.ScanAgreesWithParse` shows that the loop as written and `Parser.ParseFrom` give
the same list or the same error. The correction therefore changes nothing but the
unterminated case.

## Left out

- The command-line driver (`main`, argparse, printing, exit codes; regfuz.py:146-181)
  and `print_tree` (regfuz.py:98-111): these are input/output plumbing.
- Checking samples against Python's `re` (regfuz.py:163, 172-175): that engine is
  foreign code. It also differs from the tree: `.` does not match a newline there, `re`
  compiles the unstripped pattern, and a top-level `\` is an escape. Membership is
  proved in the model's own `Denotes` relation instead.
- The probability distributions of `random.randint` and `random.choice`: only the set of
  possible outputs is modelled, through the draw sequence.
- Error message texts and the index arithmetic inside them (regfuz.py:76, 82, 94): only
  the error kind is kept.
- The name-string dispatch and the "Invalid node type" fallback (regfuz.py:143), and
  `generate_pattern(None)` (regfuz.py:114-115): the datatype makes these unrepresentable.
- A negative `maxRepeat`, for which `randint` raises: the bound is a `nat`.
- STAR and PLUS hold a one-element children list in the source; here they hold the
  child directly, because nothing ever builds them with any other count.

=== FILE: generator.dfy ===
/**
  The generator, `generate_pattern` (regfuz.py:113-143). The source draws from
  Python's process-wide `random`; here the draws are an explicit sequence of
  naturals read from the front, each reduced into the range the source asks
  `randint`/`choice` for. Every output the source can produce is an output for
  some draw sequence, and conversely.
 */
module Generator {
  import opened Results
  import opened RegexTree

  /** The ways `generate_pattern` raises. */
  datatype GenError =
      /** `random.choice` on the empty list of a BRACKET such as `[]` or `[z-a]`. */
    | EmptyChoice
      /** `random.randint(1, 0)` for a PLUS when the repeat bound is 0. */
    | EmptyRepeatRange

  /** An output string and the draws left after producing it. */
  datatype Gen = Gen(out: seq<CodePoint>, rest: seq<nat>)

  /** The next draw; an exhausted sequence keeps drawing 0. */
  function Head(draws: seq<nat>): nat
  {
    if draws == [] then 0 else draws[0]
  }

  function Tail(draws: seq<nat>): seq<nat>
  {
    if draws == [] then [] else draws[1..]
  }

  /** `rest` is what remains of `draws` after some were taken from the front. */
  predicate Consumed(draws: seq<nat>, rest: seq<nat>)
  {
    |rest| <= |draws| && rest == draws[|draws| - |rest|..]
  }

  lemma ConsumedTransitive(a: seq<nat>, b: seq<nat>, c: seq<nat>)
    requires Consumed(a, b) && Consumed(b, c)
    ensures Consumed(a, c)
  {
    assert c == a[|a| - |b|..][|b| - |c|..];
  }

  /** One sample for `node` with repeat bound `maxRepeat`. */
  function Generate(node: Node, maxRepeat: nat, draws: seq<nat>): (r: Result<Gen, GenError>)
    decreases node, 0
  {
    match node
    case Char(c) => Success(Gen([c], draws))
    case Any =>
      // chr(random.randint(0, 255))
      Success(Gen([Head(draws) % (AnyMax + 1)], Tail(draws)))
    case Bracket(choices) =>
      // random.choice(choices)
      if choices == [] then Failure(EmptyChoice)
      else Success(Gen([choices[Head(draws) % |choices|]], Tail(draws)))
    case Star(child) =>
      // random.randint(0, maxRepeat) repetitions
      GenerateTimes(child, maxRepeat, Head(draws) % (maxRepeat + 1), Tail(draws))
    case Plus(child) =>
      // random.randint(1, maxRepeat) repetitions; an empty range raises
      if maxRepeat == 0 then Failure(EmptyRepeatRange)
      else GenerateTimes(child, maxRepeat, 1 + Head(draws) % maxRepeat, Tail(draws))
    case Root(children) => GenerateAll(children, maxRepeat, draws)
  }

  /** `times` independent samples of `child`, concatenated in the order drawn. */
  function GenerateTimes(child: Node, maxRepeat: nat, times: nat, draws: seq<nat>): (r: Result<Gen, GenError>)
    decreases child, 1, times
  {
    if times == 0 then Success(Gen([], draws))
    else
      var first :- Generate(child, maxRepeat, draws);
      var more :- GenerateTimes(child, maxRepeat, times - 1, first.rest);
      Success(Gen(first.out + more.out, more.rest))
  }

  /** One sample of each of `children`, concatenated left to right (the ROOT loop). */
  function GenerateAll(children: seq<Node>, maxRepeat: nat, draws: seq<nat>): (r: Result<Gen, GenError>)
    decreases children, 1
  {
    if children == [] then Success(Gen([], draws))
    else
      var first :- Generate(children[0], maxRepeat, draws);
      var more :- GenerateAll(children[1..], maxRepeat, first.rest);
      Success(Gen(first.out + more.out, more.rest))
  }

  /** Generation only ever takes draws from the front: what is left over is
      a suffix of the draws it was given. */
  lemma {:induction false} GenerateConsumes(node: Node, maxRepeat: nat, draws: seq<nat>)
    requires Generate(node, maxRepeat, draws).Success?
    ensures Consumed(draws, Generate(node, maxRepeat, draws).value.rest)
    decreases node, 0
  {
    match node
    case Char(_) =>
    case Any =>
    case Bracket(_) =>
    case Star(c) =>
      GenerateTimesConsumes(c, maxRepeat, Head(draws) % (maxRepeat + 1), Tail(draws));
      ConsumedTransitive(draws, Tail(draws), Generate(node, maxRepeat, draws).value.rest);
    case Plus(c) =>
      GenerateTimesConsumes(c, maxRepeat, 1 + Head(draws) % maxRepeat, Tail(draws));
      ConsumedTransitive(draws, Tail(draws), Generate(node, maxRepeat, draws).value.rest);
    case Root(children) =>
      GenerateAllConsumes(children, maxRepeat, draws);
  }

  lemma {:induction false} GenerateTimesConsumes(child: Node, maxRepeat: nat, times: nat, draws: seq<nat>)
    requires GenerateTimes(child, maxRepeat, times, draws).Success?
    ensures Consumed(draws, GenerateTimes(child, maxRepeat, times, draws).value.rest)
    decreases child, 1, times
  {
    if times > 0 {
      var first := Generate(child, maxRepeat, draws).value;
      GenerateConsumes(child, maxRepeat, draws);
      GenerateTimesConsumes(child, maxRepeat, times - 1, first.rest);
      ConsumedTransitive(draws, first.rest, GenerateTimes(child, maxRepeat, times, draws).value.rest);
    }
  }

  lemma {:induction false} GenerateAllConsumes(children: seq<Node>, maxRepeat: nat, draws: seq<nat>)
    requires GenerateAll(children, maxRepeat, draws).Success?
    ensures Consumed(draws, GenerateAll(children, maxRepeat, draws).value.rest)
    decreases children, 1
  {
    if children != [] {
      var first := Generate(children[0], maxRepeat, draws).value;
      GenerateConsumes(children[0], maxRepeat, draws);
      GenerateAllConsumes(children[1..], maxRepeat, first.rest);
      ConsumedTransitive(draws, first.rest, GenerateAll(children, maxRepeat, draws).value.rest);
    }
  }
}

=== FILE: language.dfy ===
/**
  What a tree stands for, independently of how samples are drawn: the set of
  strings a node denotes when every quantifier repeats at most `maxRepeat`
  times. The generator is sound (every sample is in the set) and complete
  (every member of the set is the sample for some draws), and fails for some
  draws exactly when the tree holds a hazard: an empty BRACKET or a PLUS under
  a zero bound that can be reached.
 */
module Language {
  import opened Results
  import opened RegexTree
  import opened Generator

  /** `s` is in the language of `n` under the repeat bound `maxRepeat`. */
  ghost predicate Denotes(n: Node, maxRepeat: nat, s: seq<CodePoint>)
    decreases n, 0
  {
    match n
    case Char(c) => s == [c]
    case Any => |s| == 1 && s[0] <= AnyMax
    case Bracket(choices) => |s| == 1 && s[0] in choices
    case Star(c) => exists k :: 0 <= k <= maxRepeat && Repeats(c, maxRepeat, k, s)
    case Plus(c) => exists k :: 1 <= k <= maxRepeat && Repeats(c, maxRepeat, k, s)
    case Root(children) => Concat(children, maxRepeat, s)
  }

  /** `s` splits into `k` consecutive words of the language of `c`. */
  ghost predicate Repeats(c: Node, maxRepeat: nat, k: nat, s: seq<CodePoint>)
    decreases c, 1, k
  {
    if k == 0 then s == []
    else exists j :: 0 <= j <= |s| && Denotes(c, maxRepeat, s[..j]) && Repeats(c, maxRepeat, k - 1, s[j..])
  }

  /** `s` splits into one word of each of `ns`, in order. */
  ghost predicate Concat(ns: seq<Node>, maxRepeat: nat, s: seq<CodePoint>)
    decreases ns, 1
  {
    if ns == [] then s == []
    else exists j :: 0 <= j <= |s| && Denotes(ns[0], maxRepeat, s[..j]) && Concat(ns[1..], maxRepeat, s[j..])
  }

  /** Soundness: whatever the draws, a sample lies in the language of the
      tree. For a parsed ROOT this is the "satisfies the input regular
      expression" property the tool sets out to provide. */
  lemma {:induction false} GenerateSound(n: Node, maxRepeat: nat, draws: seq<nat>)
    requires Generate(n, maxRepeat, draws).Success?
    ensures Denotes(n, maxRepeat, Generate(n, maxRepeat, draws).value.out)
    decreases n, 0
  {
    match n
    case Char(_) =>
    case Any =>
    case Bracket(_) =>
    case Star(c) =>
      var k := Head(draws) % (maxRepeat + 1);
      GenerateTimesSound(c, maxRepeat, k, Tail(draws));
    case Plus(c) =>
      var k := 1 + Head(draws) % maxRepeat;
      GenerateTimesSound(c, maxRepeat, k, Tail(draws));
    case Root(children) =>
      GenerateAllSound(children, maxRepeat, draws);
  }

  lemma {:induction false} GenerateTimesSound(c: Node, maxRepeat: nat, times: nat, draws: seq<nat>)
    requires GenerateTimes(c, maxRepeat, times, draws).Success?
    ensures Repeats(c, maxRepeat, times, GenerateTimes(c, maxRepeat, times, draws).value.out)
    decreases c, 1, times
  {
    if times > 0 {
      var first := Generate(c, maxRepeat, draws).value;
      var more := GenerateTimes(c, maxRepeat, times - 1, first.rest).value;
      GenerateSound(c, maxRepeat, draws);
      GenerateTimesSound(c, maxRepeat, times - 1, first.rest);
      var s := first.out + more.out;
      assert s[..|first.out|] == first.out && s[|first.out|..] == more.out;
    }
  }

  lemma {:induction false} GenerateAllSound(ns: seq<Node>, maxRepeat: nat, draws: seq<nat>)
    requires GenerateAll(ns, maxRepeat, draws).Success?
    ensures Concat(ns, maxRepeat, GenerateAll(ns, maxRepeat, draws).value.out)
    decreases ns, 1
  {
    if ns != [] {
      var first := Generate(ns[0], maxRepeat, draws).value;
      var more := GenerateAll(ns[1..], maxRepeat, first.rest).value;
      GenerateSound(ns[0], maxRepeat, draws);
      GenerateAllSound(ns[1..], maxRepeat, first.rest);
      var s := first.out + more.out;
      assert s[..|first.out|] == first.out && s[|first.out|..] == more.out;
    }
  }

  /** One more repetition in front: draws `w1` produce `a`, then draws `w2`
      produce the remaining `b`. */
  lemma TimesStep(c: Node, maxRepeat: nat, times: nat, w1: seq<nat>, w2: seq<nat>, rest: seq<nat>,
                  a: seq<CodePoint>, b: seq<CodePoint>)
    requires times > 0
    requires Generate(c, maxRepeat, w1 + (w2 + rest)) == Success(Gen(a, w2 + rest))
    requires GenerateTimes(c, maxRepeat, times - 1, w2 + rest) == Success(Gen(b, rest))
    ensures GenerateTimes(c, maxRepeat, times, (w1 + w2) + rest) == Success(Gen(a + b, rest))
  {
    assert (w1 + w2) + rest == w1 + (w2 + rest);
  }

  /** One more child in front, as for `TimesStep`. */
  lemma AllStep(ns: seq<Node>, maxRepeat: nat, w1: seq<nat>, w2: seq<nat>, rest: seq<nat>,
                a: seq<CodePoint>, b: seq<CodePoint>)
    requires ns != []
    requires Generate(ns[0], maxRepeat, w1 + (w2 + rest)) == Success(Gen(a, w2 + rest))
    requires GenerateAll(ns[1..], maxRepeat, w2 + rest) == Success(Gen(b, rest))
    ensures GenerateAll(ns, maxRepeat, (w1 + w2) + rest) == Success(Gen(a + b, rest))
  {
    assert (w1 + w2) + rest == w1 + (w2 + rest);
  }

  /** The leaves: one draw picks the character. */
  lemma LeafComplete(n: Node, maxRepeat: nat, s: seq<CodePoint>, rest: seq<nat>) returns (w: seq<nat>)
    requires n.Char? || n.Any? || n.Bracket?
    requires Denotes(n, maxRepeat, s)
    ensures Generate(n, maxRepeat, w + rest) == Success(Gen(s, rest))
  {
    match n
    case Char(_) =>
      w := [];
      assert w + rest == rest;
    case Any =>
      w := [s[0]];
      assert Head(w + rest) % (AnyMax + 1) == s[0];
      assert Tail(w + rest) == rest;
      assert s == [s[0]];
    case Bracket(choices) =>
      var i :| 0 <= i < |choices| && choices[i] == s[0];
      w := [i];
      assert Head(w + rest) % |choices| == i;
      assert Tail(w + rest) == rest;
      assert s == [s[0]];
  }

  /** A STAR: one draw picks the repetition count `k`. */
  lemma StarStep(c: Node, maxRepeat: nat, k: nat, wt: seq<nat>, rest: seq<nat>, s: seq<CodePoint>)
    requires k <= maxRepeat
    requires GenerateTimes(c, maxRepeat, k, wt + rest) == Success(Gen(s, rest))
    ensures Generate(Star(c), maxRepeat, ([k] + wt) + rest) == Success(Gen(s, rest))
  {
    var d := ([k] + wt) + rest;
    assert Head(d) % (maxRepeat + 1) == k;
    assert Tail(d) == wt + rest;
  }

  /** A PLUS: one draw picks the repetition count `k`, at least 1. */
  lemma PlusStep(c: Node, maxRepeat: nat, k: nat, wt: seq<nat>, rest: seq<nat>, s: seq<CodePoint>)
    requires 1 <= k <= maxRepeat
    requires GenerateTimes(c, maxRepeat, k, wt + rest) == Success(Gen(s, rest))
    ensures Generate(Plus(c), maxRepeat, ([k - 1] + wt) + rest) == Success(Gen(s, rest))
  {
    var d := ([k - 1] + wt) + rest;
    assert 1 + Head(d) % maxRepeat == k;
    assert Tail(d) == wt + rest;
  }

  /** Completeness: every word of the language is produced by some draws,
      which are read exactly, leaving any draws after them untouched. */
  lemma {:induction false} GenerateComplete(n: Node, maxRepeat: nat, s: seq<CodePoint>, rest: seq<nat>)
    returns (w: seq<nat>)
    requires Denotes(n, maxRepeat, s)
    ensures Generate(n, maxRepeat, w + rest) == Success(Gen(s, rest))
    decreases n, 0
  {
    match n
    case Char(_) =>
      w := LeafComplete(n, maxRepeat, s, rest);
    case Any =>
      w := LeafComplete(n, maxRepeat, s, rest);
    case Bracket(_) =>
      w := LeafComplete(n, maxRepeat, s, rest);
    case Star(c) =>
      var k :| 0 <= k <= maxRepeat && Repeats(c, maxRepeat, k, s);
      var wt := GenerateTimesComplete(c, maxRepeat, k, s, rest);
      StarStep(c, maxRepeat, k, wt, rest, s);
      w := [k] + wt;
    case Plus(c) =>
      var k :| 1 <= k <= maxRepeat && Repeats(c, maxRepeat, k, s);
      var wt := GenerateTimesComplete(c, maxRepeat, k, s, rest);
      PlusStep(c, maxRepeat, k, wt, rest, s);
      w := [k - 1] + wt;
    case Root(children) =>
      w := GenerateAllComplete(children, maxRepeat, s, rest);
  }

  lemma {:induction false} GenerateTimesComplete(c: Node, maxRepeat: nat, times: nat, s: seq<CodePoint>, rest: seq<nat>)
    returns (w: seq<nat>)
    requires Repeats(c, maxRepeat, times, s)
    ensures GenerateTimes(c, maxRepeat, times, w + rest) == Success(Gen(s, rest))
    decreases c, 1, times
  {
    if times == 0 {
      w := [];
      assert w + rest == rest;
    } else {
      var j :| 0 <= j <= |s| && Denotes(c, maxRepeat, s[..j]) && Repeats(c, maxRepeat, times - 1, s[j..]);
      w := TimesCompleteStep(c, maxRepeat, times, s, j, rest);
    }
  }

  lemma {:induction false} GenerateAllComplete(ns: seq<Node>, maxRepeat: nat, s: seq<CodePoint>, rest: seq<nat>)
    returns (w: seq<nat>)
    requires Concat(ns, maxRepeat, s)
    ensures GenerateAll(ns, maxRepeat, w + rest) == Success(Gen(s, rest))
    decreases ns, 1
  {
    if ns == [] {
      w := [];
      assert w + rest == rest;
    } else {
      var j :| 0 <= j <= |s| && Denotes(ns[0], maxRepeat, s[..j]) && Concat(ns[1..], maxRepeat, s[j..]);
      w := AllCompleteStep(ns, maxRepeat, s, j, rest);
    }
  }

  /** Draws for `s` split at `j` into a word of `c` and `times - 1` more words. */
  lemma {:induction false} TimesCompleteStep(c: Node, maxRepeat: nat, times: nat, s: seq<CodePoint>, j: nat,
                                             rest: seq<nat>) returns (w: seq<nat>)
    requires times > 0 && j <= |s|
    requires Denotes(c, maxRepeat, s[..j]) && Repeats(c, maxRepeat, times - 1, s[j..])
    ensures GenerateTimes(c, maxRepeat, times, w + rest) == Success(Gen(s, rest))
    decreases c, 1, times, 0
  {
    var a, b := s[..j], s[j..];
    var w2 := GenerateTimesComplete(c, maxRepeat, times - 1, b, rest);
    var w1 := GenerateComplete(c, maxRepeat, a, w2 + rest);
    TimesStep(c, maxRepeat, times, w1, w2, rest, a, b);
    assert a + b == s;
    w := w1 + w2;
  }

  /** Draws for `s` split at `j` into a word of the first child and words of the others. */
  lemma {:induction false} AllCompleteStep(ns: seq<Node>, maxRepeat: nat, s: seq<CodePoint>, j: nat,
                                           rest: seq<nat>) returns (w: seq<nat>)
    requires ns != [] && j <= |s|
    requires Denotes(ns[0], maxRepeat, s[..j]) && Concat(ns[1..], maxRepeat, s[j..])
    ensures GenerateAll(ns, maxRepeat, w + rest) == Success(Gen(s, rest))
    decreases ns, 1, 0
  {
    var a, b := s[..j], s[j..];
    var w2 := GenerateAllComplete(ns[1..], maxRepeat, b, rest);
    var w1 := GenerateComplete(ns[0], maxRepeat, a, w2 + rest);
    AllStep(ns, maxRepeat, w1, w2, rest, a, b);
    assert a + b == s;
    w := w1 + w2;
  }

  /** Under a zero bound a STAR denotes only the empty string and a PLUS
      denotes nothing at all. */
  lemma ZeroBoundLanguage(c: Node, s: seq<CodePoint>)
    ensures Denotes(Star(c), 0, s) <==> s == []
    ensures !Denotes(Plus(c), 0, s)
  {
    if s == [] {
      assert Repeats(c, 0, 0, s);
    }
  }

  /** No reachable hazard: no BRACKET with an empty list, and no PLUS when the
      bound is 0. A STAR under a zero bound never generates its child, so
      whatever is below it is harmless. */
  predicate Safe(n: Node, maxRepeat: nat)
  {
    match n
    case Char(_) => true
    case Any => true
    case Bracket(choices) => choices != []
    case Star(c) => maxRepeat == 0 || Safe(c, maxRepeat)
    case Plus(c) => maxRepeat > 0 && Safe(c, maxRepeat)
    case Root(children) => forall k :: 0 <= k < |children| ==> Safe(children[k], maxRepeat)
  }

  lemma {:induction false} SafeSucceeds(n: Node, maxRepeat: nat, draws: seq<nat>)
    requires Safe(n, maxRepeat)
    ensures Generate(n, maxRepeat, draws).Success?
    decreases n, 0
  {
    match n
    case Char(_) =>
    case Any =>
    case Bracket(_) =>
    case Star(c) =>
      SafeTimesSucceeds(c, maxRepeat, Head(draws) % (maxRepeat + 1), Tail(draws));
    case Plus(c) =>
      SafeTimesSucceeds(c, maxRepeat, 1 + Head(draws) % maxRepeat, Tail(draws));
    case Root(children) =>
      SafeAllSucceeds(children, maxRepeat, draws);
  }

  lemma {:induction false} SafeTimesSucceeds(c: Node, maxRepeat: nat, times: nat, draws: seq<nat>)
    requires times == 0 || Safe(c, maxRepeat)
    ensures GenerateTimes(c, maxRepeat, times, draws).Success?
    decreases c, 1, times
  {
    if times > 0 {
      SafeSucceeds(c, maxRepeat, draws);
      SafeTimesSucceeds(c, maxRepeat, times - 1, Generate(c, maxRepeat, draws).value.rest);
    }
  }

  lemma {:induction false} SafeAllSucceeds(ns: seq<Node>, maxRepeat: nat, draws: seq<nat>)
    requires forall k :: 0 <= k < |ns| ==> Safe(ns[k], maxRepeat)
    ensures GenerateAll(ns, maxRepeat, draws).Success?
    decreases ns, 1
  {
    if ns != [] {
      SafeSucceeds(ns[0], maxRepeat, draws);
      assert forall k :: 0 <= k < |ns[1..]| ==> Safe(ns[1..][k], maxRepeat) by {
        forall k | 0 <= k < |ns[1..]|
          ensures Safe(ns[1..][k], maxRepeat)
        {
          assert ns[1..][k] == ns[k + 1];
        }
      }
      SafeAllSucceeds(ns[1..], maxRepeat, Generate(ns[0], maxRepeat, draws).value.rest);
    }
  }

  /** A hazard-free tree has a non-empty language. */
  lemma {:induction false} SafeMember(n: Node, maxRepeat: nat) returns (s: seq<CodePoint>)
    requires Safe(n, maxRepeat)
    ensures Denotes(n, maxRepeat, s)
    decreases n, 0
  {
    match n
    case Char(c) =>
      s := [c];
    case Any =>
      s := [0];
    case Bracket(choices) =>
      s := [choices[0]];
    case Star(c) =>
      s := [];
      assert Repeats(c, maxRepeat, 0, s);
    case Plus(c) =>
      s := SafeMember(c, maxRepeat);
      assert s[..|s|] == s && s[|s|..] == [];
      assert Repeats(c, maxRepeat, 0, s[|s|..]);
      assert Repeats(c, maxRepeat, 1, s);
    case Root(children) =>
      s := SafeAllMember(children, maxRepeat);
  }

  lemma {:induction false} SafeAllMember(ns: seq<Node>, maxRepeat: nat) returns (s: seq<CodePoint>)
    requires forall k :: 0 <= k < |ns| ==> Safe(ns[k], maxRepeat)
    ensures Concat(ns, maxRepeat, s)
    decreases ns, 1
  {
    if ns == [] {
      s := [];
    } else {
      var a := SafeMember(ns[0], maxRepeat);
      assert forall k :: 0 <= k < |ns[1..]| ==> Safe(ns[1..][k], maxRepeat) by {
        forall k | 0 <= k < |ns[1..]|
          ensures Safe(ns[1..][k], maxRepeat)
        {
          assert ns[1..][k] == ns[k + 1];
        }
      }
      var b := SafeAllMember(ns[1..], maxRepeat);
      s := a + b;
      assert s[..|a|] == a && s[|a|..] == b;
    }
  }

  /** A tree with a reachable hazard fails for some draws. */
  lemma {:induction false} UnsafeFails(n: Node, maxRepeat: nat) returns (draws: seq<nat>)
    requires !Safe(n, maxRepeat)
    ensures Generate(n, maxRepeat, draws).Failure?
    decreases n, 0
  {
    match n
    case Bracket(_) =>
      draws := [];
    case Star(c) =>
      // maxRepeat > 0, so a first draw of 1 asks for one repetition of the hazard
      var dc := UnsafeFails(c, maxRepeat);
      draws := [1] + dc;
      assert Head(draws) % (maxRepeat + 1) == 1 && Tail(draws) == dc;
    case Plus(c) =>
      if maxRepeat == 0 {
        draws := [];
      } else {
        var dc := UnsafeFails(c, maxRepeat);
        draws := [0] + dc;
        assert 1 + Head(draws) % maxRepeat == 1 && Tail(draws) == dc;
      }
    case Root(children) =>
      draws := UnsafeAllFails(children, maxRepeat);
  }

  lemma {:induction false} UnsafeAllFails(ns: seq<Node>, maxRepeat: nat) returns (draws: seq<nat>)
    requires !(forall k :: 0 <= k < |ns| ==> Safe(ns[k], maxRepeat))
    ensures GenerateAll(ns, maxRepeat, draws).Failure?
    decreases ns, 1
  {
    if !Safe(ns[0], maxRepeat) {
      draws := UnsafeFails(ns[0], maxRepeat);
    } else {
      var k :| 0 <= k < |ns| && !Safe(ns[k], maxRepeat);
      assert k > 0 && ns[1..][k - 1] == ns[k];
      var dt := UnsafeAllFails(ns[1..], maxRepeat);
      var s := SafeMember(ns[0], maxRepeat);
      var w := GenerateComplete(ns[0], maxRepeat, s, dt);
      draws := w + dt;
    }
  }

  /** The generator's errors (`GenError`): generation succeeds for every draw
      sequence exactly when the tree has no reachable empty BRACKET and no
      PLUS under a zero bound. */
  lemma GenerationTotalIffSafe(n: Node, maxRepeat: nat)
    ensures Safe(n, maxRepeat) <==> forall draws :: Generate(n, maxRepeat, draws).Success?
  {
    if Safe(n, maxRepeat) {
      forall draws | true
        ensures Generate(n, maxRepeat, draws).Success?
      {
        SafeSucceeds(n, maxRepeat, draws);
      }
    } else {
      var draws := UnsafeFails(n, maxRepeat);
      assert !Generate(n, maxRepeat, draws).Success?;
    }
  }
}

=== FILE: parser.dfy ===
/**
  The pattern parser: `Regex.__parseRegExp` and `Regex.__parseCharExpr`
  (regfuz.py:21-94). Both are index loops in the source; here each is a
  recursive function over the unread suffix, so `rest` below is the slice
  `regex[i:]` (or `charExpr[i:]`) the loop has yet to scan.
 */
module Parser {
  import opened Results
  import opened RegexTree
  import Text

  /** The ways the source's parse raises. Only the kind is modelled, not the message. */
  datatype ParseError =
      /** A `[` with no `]` after it. The source does not raise here: `find`
          returns -1, the loop index is reset to 0 and the scan restarts
          forever. A total function cannot diverge, so this error stands for
          that non-termination. */
    | Unterminated
      /** A `\` is the last character of a bracket body. */
    | MissingEscaped
      /** `X-` ends a bracket body, so the range has no upper end. */
    | IncompleteRange
      /** `*` or `+` with no element before it: `pop` on an empty list. */
    | NothingToRepeat

  /** Python's `s.find(c)`: the first index holding `c`, if any. */
  function Find(s: seq<CodePoint>, c: CodePoint): (r: Option<nat>)
    ensures r.Some? ==> r.value < |s| && s[r.value] == c
    ensures r.Some? ==> forall k :: 0 <= k < r.value ==> s[k] != c
    ensures r.None? <==> c !in s
  {
    if s == [] then None
    else if s[0] == c then Some(0)
    else match Find(s[1..], c)
      case None => None
      case Some(j) => Some(j + 1)
  }

  /** `[chr(v) for v in range(ord(lo), ord(hi) + 1)]`: every code point from
      `lo` to `hi` inclusive, ascending; empty when `hi < lo`. */
  function Range(lo: CodePoint, hi: CodePoint): (r: seq<CodePoint>)
    ensures |r| == if lo <= hi then hi - lo + 1 else 0
    ensures forall k :: 0 <= k < |r| ==> r[k] == lo + k
    decreases if hi < lo then 0 else hi - lo + 1
  {
    if hi < lo then [] else if hi == lo then [lo] else Range(lo, hi - 1) + [hi]
  }

  /** The bracket sub-parser, `__parseCharExpr` (regfuz.py:61-91), on the
      unread part `rest` of the body between `[` and `]`. */
  function ParseBracket(rest: seq<CodePoint>): (r: Result<seq<CodePoint>, ParseError>)
    ensures r.Failure? ==> r.error == MissingEscaped || r.error == IncompleteRange
    ensures Backslash !in rest && Dash !in rest ==> r == Success(rest)
  {
    if rest == [] then Success([])
    else if rest[0] == Backslash then
      // `\x`: `x` literally; a `\` with nothing after it is an error
      if |rest| == 1 then Failure(MissingEscaped)
      else
        var tail :- ParseBracket(rest[2..]);
        Success([rest[1]] + tail)
    else if |rest| >= 2 && rest[1] == Dash then
      // `X-Y`: the inclusive range; `X-` at the very end is an error
      if |rest| == 2 then Failure(IncompleteRange)
      else
        var tail :- ParseBracket(rest[3..]);
        Success(Range(rest[0], rest[2]) + tail)
    else
      var tail :- ParseBracket(rest[1..]);
      assert rest == [rest[0]] + rest[1..];
      Success([rest[0]] + tail)
  }

  /** `children.append(Q([children.pop()]))` for the quantifier `Q` (STAR when
      `star`, PLUS otherwise): the last element is wrapped in place, the
      others are left alone, and an empty list makes `pop` raise. */
  function Quantify(children: seq<Node>, star: bool): (r: Result<seq<Node>, ParseError>)
    ensures r.Failure? <==> children == []
    ensures r.Failure? ==> r.error == NothingToRepeat
    ensures r.Success? ==> |r.value| == |children|
    ensures r.Success? ==> r.value[..|children| - 1] == children[..|children| - 1]
    ensures r.Success? && star ==> r.value[|children| - 1] == Star(children[|children| - 1])
    ensures r.Success? && !star ==> r.value[|children| - 1] == Plus(children[|children| - 1])
  {
    if children == [] then Failure(NothingToRepeat)
    else
      var last := children[|children| - 1];
      Success(children[..|children| - 1] + [if star then Star(last) else Plus(last)])
  }

  /** The body the source hands to the bracket sub-parser when no `]`
      follows: `regex[i+1:-1]`, i.e. `rest` without its first and last
      characters (empty when `rest` has only the `[`). */
  function UnclosedBody(rest: seq<CodePoint>): seq<CodePoint>
    requires rest != []
  {
    if |rest| == 1 then [] else rest[1..|rest| - 1]
  }

  /** The top-level scan of `__parseRegExp` (regfuz.py:31-56) from the
      unread suffix `rest`, with `children` the ROOT list built so far.
      On success the result is the final ROOT child list. */
  function ParseFrom(rest: seq<CodePoint>, children: seq<Node>): (r: Result<seq<Node>, ParseError>)
  {
    if rest == [] then Success(children)
    else
      var c := rest[0];
      if c == OpenBracket then
        match Find(rest, CloseBracket)
        case None =>
          // the source parses regex[i+1:-1] (which may raise) and then loops forever
          var _ :- ParseBracket(UnclosedBody(rest));
          Failure(Unterminated)
        case Some(close) =>
          var choices :- ParseBracket(rest[1..close]);
          ParseFrom(rest[close + 1..], children + [Bracket(choices)])
      else if c == StarMark || c == PlusMark then
        var quantified :- Quantify(children, c == StarMark);
        ParseFrom(rest[1..], quantified)
      else if c == Dot then
        ParseFrom(rest[1..], children + [Any])
      else
        ParseFrom(rest[1..], children + [Char(c)])
  }

  /** `Regex(regex)`: strip the pattern, scan it into one ROOT, and record
      whether ROOT got any child (regfuz.py:22-28, 58-59). */
  function Compile(pattern: seq<CodePoint>): (r: Result<Regex, ParseError>)
    ensures r.Success? ==> r.value.root.Root?
    ensures r.Success? ==> forall k :: 0 <= k < |r.value.root.children| ==> TopLevel(r.value.root.children[k])
    ensures r.Success? ==> (r.value.matched <==> Text.Strip(pattern) != [])
  {
    var children :- ParseFrom(Text.Strip(pattern), []);
    ParseFromShape(Text.Strip(pattern), []);
    Success(Regex(Root(children), |children| > 0))
  }

  /** Whitespace around a pattern does not matter: a pattern compiles to
      exactly what its stripped form compiles to. */
  lemma CompileIgnoresSurroundingSpace(pattern: seq<CodePoint>)
    ensures Compile(pattern) == Compile(Text.Strip(pattern))
  {
    Text.StripIdempotent(pattern);
  }

  /** A pattern with no whitespace at either end compiles to the ROOT of its
      own scan. */
  lemma CompileTrimmed(pattern: seq<CodePoint>, children: seq<Node>)
    requires Text.Trimmed(pattern)
    requires ParseFrom(pattern, []) == Success(children)
    ensures Compile(pattern) == Success(Regex(Root(children), children != []))
  {
    Text.StripTrimmed(pattern);
  }

  /** The scan never removes an element, leaves at least one after a
      successful scan of non-empty text, and adds only legal top-level nodes. */
  lemma {:induction false} ParseFromShape(rest: seq<CodePoint>, children: seq<Node>)
    ensures ParseFrom(rest, children).Success? ==> |ParseFrom(rest, children).value| >= |children|
    ensures ParseFrom(rest, children).Success? && rest != [] ==> ParseFrom(rest, children).value != []
    ensures ParseFrom(rest, children).Success? && (forall k :: 0 <= k < |children| ==> TopLevel(children[k])) ==>
              forall k :: 0 <= k < |ParseFrom(rest, children).value| ==> TopLevel(ParseFrom(rest, children).value[k])
  {
    if rest != [] {
      var c := rest[0];
      if c == OpenBracket {
        match Find(rest, CloseBracket)
        case None =>
        case Some(close) =>
          var choices := ParseBracket(rest[1..close]);
          if choices.Success? {
            ParseFromShape(rest[close + 1..], children + [Bracket(choices.value)]);
          }
      } else if c == StarMark || c == PlusMark {
        var q := Quantify(children, c == StarMark);
        if q.Success? {
          ParseFromShape(rest[1..], q.value);
        }
      } else if c == Dot {
        ParseFromShape(rest[1..], children + [Any]);
      } else {
        ParseFromShape(rest[1..], children + [Char(c)]);
      }
    }
  }

  /** One step of the scan over a closed bracket. */
  lemma ParseBracketStep(rest: seq<CodePoint>, close: nat, children: seq<Node>)
    requires rest != [] && rest[0] == OpenBracket
    requires Find(rest, CloseBracket) == Some(close)
    ensures ParseBracket(rest[1..close]).Failure? ==>
              ParseFrom(rest, children) == Failure(ParseBracket(rest[1..close]).error)
    ensures ParseBracket(rest[1..close]).Success? ==>
              ParseFrom(rest, children) == ParseFrom(rest[close + 1..], children + [Bracket(ParseBracket(rest[1..close]).value)])
  {
  }

  /** Each `[...]` adds exactly one BRACKET, built from the text up to the
      first `]` (or fails as that text does), and the scan resumes just
      after that `]`. */
  lemma ParseClosedBracket(body: seq<CodePoint>, post: seq<CodePoint>, children: seq<Node>)
    requires CloseBracket !in body
    ensures ParseBracket(body).Failure? ==>
              ParseFrom([OpenBracket] + body + [CloseBracket] + post, children) == Failure(ParseBracket(body).error)
    ensures ParseBracket(body).Success? ==>
              ParseFrom([OpenBracket] + body + [CloseBracket] + post, children)
              == ParseFrom(post, children + [Bracket(ParseBracket(body).value)])
  {
    var p := [OpenBracket] + body + [CloseBracket] + post;
    var close := 1 + |body|;
    assert p[close] == CloseBracket;
    forall k | 0 <= k < close
      ensures p[k] != CloseBracket
    {
      if k > 0 {
        assert p[k] == body[k - 1];
      }
    }
    var f := Find(p, CloseBracket);
    assert f == Some(close) by {
      assert CloseBracket in p;
      assert !(f.value < close);
      assert !(f.value > close);
    }
    assert p[1..close] == body;
    assert p[close + 1..] == post;
    ParseBracketStep(p, close, children);
  }

  /** What the literal index loop of `__parseRegExp` can come to within a
      budget of `fuel` loop iterations. */
  datatype ScanOutcome = Finished(children: seq<Node>) | Raised(error: ParseError) | StillRunning

  /** The top-level loop exactly as written, indexed like the source: at an
      unclosed `[`, `closing` is -1, so `i = closing` and `i += 1` send the
      scan back to index 0 with the new BRACKET kept. `fuel` bounds the
      number of iterations so that the non-termination can be stated. */
  function ScanAsWritten(p: seq<CodePoint>, i: nat, children: seq<Node>, fuel: nat): (r: ScanOutcome)
    decreases fuel
  {
    if i >= |p| then Finished(children)
    else if fuel == 0 then StillRunning
    else
      var c := p[i];
      if c == OpenBracket then
        match Find(p[i..], CloseBracket)
        case None =>
          (match ParseBracket(UnclosedBody(p[i..]))
           case Failure(e) => Raised(e)
           case Success(choices) => ScanAsWritten(p, 0, children + [Bracket(choices)], fuel - 1))
        case Some(close) =>
          match ParseBracket(p[i + 1..i + close])
          case Failure(e) => Raised(e)
          case Success(choices) => ScanAsWritten(p, i + close + 1, children + [Bracket(choices)], fuel - 1)
      else if c == StarMark || c == PlusMark then
        match Quantify(children, c == StarMark)
        case Failure(e) => Raised(e)
        case Success(quantified) => ScanAsWritten(p, i + 1, quantified, fuel - 1)
      else if c == Dot then
        ScanAsWritten(p, i + 1, children + [Any], fuel - 1)
      else
        ScanAsWritten(p, i + 1, children + [Char(c)], fuel - 1)
  }

  /** As written, the pattern `[` never finishes: however many iterations
      are allowed, the loop is still running. */
  lemma {:induction false} UnclosedBracketLoops(children: seq<Node>, fuel: nat)
    ensures ScanAsWritten([OpenBracket], 0, children, fuel) == StillRunning
    decreases fuel
  {
    var p := [OpenBracket];
    if fuel > 0 {
      assert p[0..] == p;
      assert Find(p, CloseBracket) == None;
      assert UnclosedBody(p) == [];
      UnclosedBracketLoops(children + [Bracket([])], fuel - 1);
    }
  }

  /** A `[` at `m` with no `]` after it. */
  predicate UnclosedAt(p: seq<CodePoint>, m: nat)
  {
    m < |p| && p[m] == OpenBracket && CloseBracket !in p[m + 1..]
  }

  /** As written, a pattern with an unclosed `[` never finishes: the loop
      raises, or it is still running however many iterations are allowed.
      Each pass reaches the unclosed `[` and restarts from index 0. */
  lemma NeverFinishesUnclosed(p: seq<CodePoint>, children: seq<Node>, fuel: nat)
    requires !BracketsClosed(p)
    ensures !ScanAsWritten(p, 0, children, fuel).Finished?
  {
    var m := UnclosedIndex(p);
    NeverFinishesBefore(p, m, 0, children, fuel);
  }

  /** Where the first unclosed `[` of a text is. */
  lemma {:induction false} UnclosedIndex(s: seq<CodePoint>) returns (m: nat)
    requires !BracketsClosed(s)
    ensures UnclosedAt(s, m)
    decreases |s|
  {
    if s[0] == OpenBracket && CloseBracket !in s[1..] {
      m := 0;
    } else {
      var m' := UnclosedIndex(s[1..]);
      assert s[1..][m' + 1..] == s[m' + 2..];
      m := m' + 1;
    }
  }

  /** From any index up to an unclosed `[`, the loop as written does not
      finish: every step either raises, stays at or before that `[`, or
      restarts at 0. */
  lemma {:induction false} NeverFinishesBefore(p: seq<CodePoint>, m: nat, i: nat, children: seq<Node>, fuel: nat)
    requires UnclosedAt(p, m) && i <= m
    ensures !ScanAsWritten(p, i, children, fuel).Finished?
    decreases fuel, 2
  {
    if fuel > 0 {
      var c := p[i];
      if c == OpenBracket {
        NeverFinishesBracket(p, m, i, children, fuel);
      } else if c == StarMark || c == PlusMark {
        match Quantify(children, c == StarMark)
        case Failure(_) =>
        case Success(quantified) =>
          NeverFinishesBefore(p, m, i + 1, quantified, fuel - 1);
      } else if c == Dot {
        NeverFinishesBefore(p, m, i + 1, children + [Any], fuel - 1);
      } else {
        NeverFinishesBefore(p, m, i + 1, children + [Char(c)], fuel - 1);
      }
    }
  }

  /** The bracket step of `NeverFinishesBefore`. */
  lemma {:induction false} NeverFinishesBracket(p: seq<CodePoint>, m: nat, i: nat, children: seq<Node>, fuel: nat)
    requires UnclosedAt(p, m) && i <= m && p[i] == OpenBracket && fuel > 0
    ensures !ScanAsWritten(p, i, children, fuel).Finished?
    decreases fuel, 1
  {
    match Find(p[i..], CloseBracket)
    case None => NeverFinishesRestart(p, m, i, children, fuel);
    case Some(close) =>
      CloseBeforeUnclosed(p, m, i, close);
      NeverFinishesSkip(p, m, i, children, fuel, close, ParseBracket(p[i + 1..i + close]));
  }

  /** A `[` with no `]` after it sends the loop back to index 0, unless its
      body raises. */
  lemma {:induction false} NeverFinishesRestart(p: seq<CodePoint>, m: nat, i: nat, children: seq<Node>, fuel: nat)
    requires UnclosedAt(p, m) && i <= m && p[i] == OpenBracket && fuel > 0
    requires Find(p[i..], CloseBracket) == None
    ensures !ScanAsWritten(p, i, children, fuel).Finished?
    decreases fuel, 0
  {
    var body := ParseBracket(UnclosedBody(p[i..]));
    if body.Success? {
      NeverFinishesBefore(p, m, 0, children + [Bracket(body.value)], fuel - 1);
    }
    UnclosedScanStep(p, i, children, fuel, body);
  }

  /** A `]` found from a `[` before the unclosed one lies before it too, so
      the loop resumes at or before the unclosed `[`, unless the body raises. */
  lemma {:induction false} NeverFinishesSkip(p: seq<CodePoint>, m: nat, i: nat, children: seq<Node>, fuel: nat, close: nat,
                                             body: Result<seq<CodePoint>, ParseError>)
    requires UnclosedAt(p, m) && i + close < m && p[i] == OpenBracket && fuel > 0
    requires Find(p[i..], CloseBracket) == Some(close)
    requires ParseBracket(p[i + 1..i + close]) == body
    ensures !ScanAsWritten(p, i, children, fuel).Finished?
    decreases fuel, 0
  {
    if body.Success? {
      NeverFinishesBefore(p, m, i + close + 1, children + [Bracket(body.value)], fuel - 1);
    }
    SkipNotFinished(p, i, children, fuel, close, body);
  }

  /** The first `]` after a `[` at or before an unclosed `[` comes before it. */
  lemma CloseBeforeUnclosed(p: seq<CodePoint>, m: nat, i: nat, close: nat)
    requires UnclosedAt(p, m) && i <= m
    requires Find(p[i..], CloseBracket) == Some(close)
    ensures i + close < m
  {
    assert p[i + close] == p[i..][close];
  }

  /** The loop does not finish from a closed bracket if it does not finish
      from just after it. */
  lemma SkipNotFinished(p: seq<CodePoint>, i: nat, children: seq<Node>, fuel: nat, close: nat,
                        body: Result<seq<CodePoint>, ParseError>)
    requires i < |p| && p[i] == OpenBracket && fuel > 0
    requires Find(p[i..], CloseBracket) == Some(close)
    requires ParseBracket(p[i + 1..i + close]) == body
    requires body.Success? ==> !ScanAsWritten(p, i + close + 1, children + [Bracket(body.value)], fuel - 1).Finished?
    ensures !ScanAsWritten(p, i, children, fuel).Finished?
  {
    ScanBracketStep(p, i, children, fuel, close, body);
  }

  /** One iteration of the loop as written at a `[` with no `]` after it:
      the body `regex[i+1:-1]` raises, or the scan restarts at index 0. */
  lemma UnclosedScanStep(p: seq<CodePoint>, i: nat, children: seq<Node>, fuel: nat,
                         body: Result<seq<CodePoint>, ParseError>)
    requires i < |p| && p[i] == OpenBracket && fuel > 0
    requires Find(p[i..], CloseBracket) == None
    requires ParseBracket(UnclosedBody(p[i..])) == body
    ensures ScanAsWritten(p, i, children, fuel)
         == match body
            case Failure(e) => Raised(e)
            case Success(choices) => ScanAsWritten(p, 0, children + [Bracket(choices)], fuel - 1)
  {
  }

  /** Every `[` of `s` has a `]` somewhere after it: the patterns on which
      the loop as written terminates or raises by itself. */
  predicate BracketsClosed(s: seq<CodePoint>)
  {
    s == [] || ((s[0] == OpenBracket ==> CloseBracket in s[1..]) && BracketsClosed(s[1..]))
  }

  /** A scan result read as the outcome of the loop. */
  function AsOutcome(r: Result<seq<Node>, ParseError>): ScanOutcome
  {
    match r
    case Success(children) => Finished(children)
    case Failure(e) => Raised(e)
  }

  /** A text with a `[` that has no `]` after it never yields a tree:
      either a bracket body raises, or the source would loop forever. */
  lemma {:induction false} UnclosedBracketFails(rest: seq<CodePoint>, children: seq<Node>)
    requires !BracketsClosed(rest)
    ensures ParseFrom(rest, children).Failure?
    decreases |rest|
  {
    if rest[0] == OpenBracket {
      match Find(rest, CloseBracket)
      case None =>
      case Some(close) =>
        UnclosedAfterClose(rest, close);
        var body := ParseBracket(rest[1..close]);
        ParseBracketStep(rest, close, children);
        if body.Success? {
          UnclosedBracketFails(rest[close + 1..], children + [Bracket(body.value)]);
        }
    } else {
      var c := rest[0];
      if c == StarMark || c == PlusMark {
        var q := Quantify(children, c == StarMark);
        if q.Success? {
          UnclosedBracketFails(rest[1..], q.value);
        }
      } else if c == Dot {
        UnclosedBracketFails(rest[1..], children + [Any]);
      } else {
        UnclosedBracketFails(rest[1..], children + [Char(c)]);
      }
    }
  }

  /** An unclosed `[` lies after every `]`, so it is still unclosed in what
      follows any `]`. */
  lemma {:induction false} UnclosedAfterClose(s: seq<CodePoint>, j: nat)
    requires !BracketsClosed(s)
    requires j < |s| && s[j] == CloseBracket
    ensures !BracketsClosed(s[j + 1..])
    decreases j
  {
    if j > 0 {
      assert s[1..][j - 1] == CloseBracket;
      assert s[1..][j..] == s[j + 1..];
      UnclosedAfterClose(s[1..], j - 1);
    }
  }

  /** On a pattern whose brackets are all closed, the loop as written and
      the corrected scan agree: given at least one iteration per remaining
      character, the loop finishes with the same ROOT list exactly when the
      scan succeeds, and raises the same error exactly when the scan fails. */
  lemma {:induction false} ScanAgreesWithParse(p: seq<CodePoint>, i: nat, children: seq<Node>, fuel: nat)
    requires i <= |p| && BracketsClosed(p[i..])
    requires fuel >= |p| - i
    ensures ScanAsWritten(p, i, children, fuel) == AsOutcome(ParseFrom(p[i..], children))
    decreases |p| - i
  {
    var rest := p[i..];
    if i < |p| {
      var c := p[i];
      assert rest[0] == c;
      assert rest[1..] == p[i + 1..];
      if c == OpenBracket {
        ScanBracketAgrees(p, i, children, fuel);
      } else if c == StarMark || c == PlusMark {
        ShiftClosed(p, i, i + 1);
        match Quantify(children, c == StarMark)
        case Failure(_) =>
        case Success(quantified) =>
          ScanAgreesWithParse(p, i + 1, quantified, fuel - 1);
      } else if c == Dot {
        ShiftClosed(p, i, i + 1);
        ScanAgreesWithParse(p, i + 1, children + [Any], fuel - 1);
      } else {
        ShiftClosed(p, i, i + 1);
        ScanAgreesWithParse(p, i + 1, children + [Char(c)], fuel - 1);
      }
    }
  }

  /** The bracket step of `ScanAgreesWithParse`: the `]` the loop finds is
      the one the scan closes the bracket with. */
  lemma {:induction false} ScanBracketAgrees(p: seq<CodePoint>, i: nat, children: seq<Node>, fuel: nat)
    requires i < |p| && p[i] == OpenBracket && BracketsClosed(p[i..])
    requires fuel >= |p| - i
    ensures ScanAsWritten(p, i, children, fuel) == AsOutcome(ParseFrom(p[i..], children))
    decreases |p| - i, 0
  {
    var close := ClosingIndex(p[i..]);
    match ParseBracket(p[i + 1..i + close])
    case Failure(e) =>
      ScanBracketJoin(p, i, children, fuel, close, Failure(e));
    case Success(choices) =>
      ShiftClosed(p, i, i + close + 1);
      ScanAgreesWithParse(p, i + close + 1, children + [Bracket(choices)], fuel - 1);
      ScanBracketJoin(p, i, children, fuel, close, Success(choices));
  }

  /** The loop and the scan take the same step over a closed bracket, so
      they agree on it when they agree on what follows it. */
  lemma ScanBracketJoin(p: seq<CodePoint>, i: nat, children: seq<Node>, fuel: nat, close: nat,
                        body: Result<seq<CodePoint>, ParseError>)
    requires i < |p| && p[i] == OpenBracket && fuel > 0
    requires Find(p[i..], CloseBracket) == Some(close)
    requires ParseBracket(p[i + 1..i + close]) == body
    requires body.Success? ==>
               ScanAsWritten(p, i + close + 1, children + [Bracket(body.value)], fuel - 1)
               == AsOutcome(ParseFrom(p[i + close + 1..], children + [Bracket(body.value)]))
    ensures ScanAsWritten(p, i, children, fuel) == AsOutcome(ParseFrom(p[i..], children))
  {
    var rest := p[i..];
    assert rest[1..close] == p[i + 1..i + close];
    assert rest[close + 1..] == p[i + close + 1..];
    ScanBracketStep(p, i, children, fuel, close, body);
    ParseBracketStep(rest, close, children);
  }

  /** One iteration of the loop as written over a closed bracket whose
      body parses to `body`. */
  lemma ScanBracketStep(p: seq<CodePoint>, i: nat, children: seq<Node>, fuel: nat, close: nat,
                        body: Result<seq<CodePoint>, ParseError>)
    requires i < |p| && p[i] == OpenBracket && fuel > 0
    requires Find(p[i..], CloseBracket) == Some(close)
    requires ParseBracket(p[i + 1..i + close]) == body
    ensures ScanAsWritten(p, i, children, fuel)
         == match body
            case Failure(e) => Raised(e)
            case Success(choices) => ScanAsWritten(p, i + close + 1, children + [Bracket(choices)], fuel - 1)
  {
  }

  /** A `[` opening a text whose brackets are all closed has its `]`: the
      first one after it is where `find` stops. */
  lemma ClosingIndex(rest: seq<CodePoint>) returns (close: nat)
    requires rest != [] && rest[0] == OpenBracket && BracketsClosed(rest)
    ensures Find(rest, CloseBracket) == Some(close) && 0 < close
  {
    assert CloseBracket in rest[1..];
    assert CloseBracket in rest;
    close := Find(rest, CloseBracket).value;
  }

  /** Closed brackets stay closed in any suffix. */
  lemma {:induction false} ShiftClosed(p: seq<CodePoint>, i: nat, i': nat)
    requires i <= i' <= |p| && BracketsClosed(p[i..])
    ensures BracketsClosed(p[i'..])
    decreases i' - i
  {
    if i < i' {
      assert p[i..][1..] == p[i + 1..];
      ShiftClosed(p, i + 1, i');
    }
  }

  /** Agreement for whole patterns: whenever every `[` of the stripped
      pattern is closed, the source's loop, given one iteration per
      character, gives exactly what `Compile` gives. */
  lemma CompileAgreesWithSource(pattern: seq<CodePoint>)
    requires BracketsClosed(Text.Strip(pattern))
    ensures ScanAsWritten(Text.Strip(pattern), 0, [], |Text.Strip(pattern)|)
         == AsOutcome(ParseFrom(Text.Strip(pattern), []))
    ensures Compile(pattern).Success? <==> ScanAsWritten(Text.Strip(pattern), 0, [], |Text.Strip(pattern)|).Finished?
    ensures Compile(pattern).Success? ==>
              Compile(pattern).value.root.children == ScanAsWritten(Text.Strip(pattern), 0, [], |Text.Strip(pattern)|).children
  {
    var s := Text.Strip(pattern);
    assert s[0..] == s;
    ScanAgreesWithParse(s, 0, [], |s|);
  }

  /** The corrected parser rejects the same pattern instead of looping. */
  lemma UnclosedBracketRejected()
    ensures Compile([OpenBracket]) == Failure(Unterminated)
  {
    Text.StripTrimmed([OpenBracket]);
    assert Find([OpenBracket], CloseBracket) == None;
  }
}

=== FILE: regfuz.dfy ===
/**
  The tool end to end, without its command line: a pattern is compiled once
  and every sample drawn from its tree belongs to the pattern's language.
  Includes worked examples of the pattern language, with patterns written as
  code points (`a` is 0x61, `0` is 0x30).
 */
module Regfuz {
  import opened Results
  import opened RegexTree
  import opened Parser
  import opened Generator
  import opened Language
  import Text
  import Unparse

  const LetterA: CodePoint := 0x61
  const LetterB: CodePoint := 0x62
  const LetterC: CodePoint := 0x63
  const Digit0: CodePoint := 0x30
  const Digit9: CodePoint := 0x39
  const Slash: CodePoint := 0x2F

  /** Every sample of a compiled pattern lies in the language of its tree. */
  lemma SamplesSatisfyPattern(pattern: seq<CodePoint>, maxRepeat: nat, draws: seq<nat>)
    requires Compile(pattern).Success?
    requires Generate(Compile(pattern).value.root, maxRepeat, draws).Success?
    ensures Denotes(Compile(pattern).value.root, maxRepeat,
                    Generate(Compile(pattern).value.root, maxRepeat, draws).value.out)
  {
    GenerateSound(Compile(pattern).value.root, maxRepeat, draws);
  }

  /** The body `0-9` is the ten digits in ascending order. */
  lemma DigitBody()
    ensures ParseBracket([Digit0, Dash, Digit9]) == Success(Range(Digit0, Digit9))
    ensures |Range(Digit0, Digit9)| == 10
  {
    var digits := [Unparse.Span(Digit0, Digit9)];
    assert Unparse.BodyText(digits) == [Digit0, Dash, Digit9] by {
      assert digits[1..] == [];
      assert Unparse.BodyText(digits) == Unparse.ItemText(digits[0]) + Unparse.BodyText(digits[1..]);
    }
    assert Unparse.Expand(digits) == Range(Digit0, Digit9) by {
      assert digits[1..] == [];
      assert Unparse.Expand(digits) == Range(Digit0, Digit9) + Unparse.Expand(digits[1..]);
    }
    Unparse.ParseBracketItems(digits);
  }

  /** A `-` that opens a body is a literal: `-a` is `-` then `a`. */
  lemma LeadingDashBody()
    ensures ParseBracket([Dash, LetterA]) == Success([Dash, LetterA])
  {
    var items := [Unparse.Lit(Dash), Unparse.Lit(LetterA)];
    assert Unparse.BodyText(items) == [Dash, LetterA] && Unparse.Expand(items) == [Dash, LetterA] by {
      assert items[1..] == [Unparse.Lit(LetterA)] && items[1..][1..] == [];
      assert Unparse.BodyText(items[1..]) == [LetterA] && Unparse.Expand(items[1..]) == [LetterA];
    }
    Unparse.ParseBracketItems(items);
  }

  /** A `-` right after a range is a literal: `a-c-` is `a`..`c` then `-`. */
  lemma DashAfterRangeBody()
    ensures ParseBracket([LetterA, Dash, LetterC, Dash]) == Success(Range(LetterA, LetterC) + [Dash])
  {
    var items := [Unparse.Span(LetterA, LetterC), Unparse.Lit(Dash)];
    assert Unparse.BodyText(items) == [LetterA, Dash, LetterC, Dash]
        && Unparse.Expand(items) == Range(LetterA, LetterC) + [Dash] by {
      assert items[1..] == [Unparse.Lit(Dash)] && items[1..][1..] == [];
      assert Unparse.BodyText(items[1..]) == [Dash] && Unparse.Expand(items[1..]) == [Dash];
    }
    Unparse.ParseBracketItems(items);
  }

  /** A range may start at `-`: `--/` is every code point from `-` to `/`,
      while `--` is a range with no upper end. */
  lemma DashRangeBody()
    ensures ParseBracket([Dash, Dash, Slash]) == Success(Range(Dash, Slash))
    ensures ParseBracket([Dash, Dash]) == Failure(IncompleteRange)
  {
    var items := [Unparse.Span(Dash, Slash)];
    assert Unparse.BodyText(items) == [Dash, Dash, Slash] && Unparse.Expand(items) == Range(Dash, Slash) by {
      assert items[1..] == [];
      assert Unparse.Expand(items) == Range(Dash, Slash) + Unparse.Expand(items[1..]);
    }
    Unparse.ParseBracketItems(items);
    var none: seq<Unparse.Item> := [];
    assert Unparse.BodyText(none) + [Dash, Dash] == [Dash, Dash];
    Unparse.TrailingDashFails(none, Dash);
  }

  /** `[0-9]` is one BRACKET holding the ten digits in ascending order. */
  lemma DigitRange()
    ensures Compile([OpenBracket, Digit0, Dash, Digit9, CloseBracket])
         == Success(Regex(Root([Bracket(Range(Digit0, Digit9))]), true))
  {
    var p := [OpenBracket, Digit0, Dash, Digit9, CloseBracket];
    var body := [Digit0, Dash, Digit9];
    var e: seq<Node> := [];
    var none: seq<CodePoint> := [];
    Text.StripTrimmed(p);
    DigitBody();
    assert ParseFrom(p, e) == Success([Bracket(Range(Digit0, Digit9))]) by {
      assert p == [OpenBracket] + body + [CloseBracket] + none;
      ParseClosedBracket(body, none, e);
      assert e + [Bracket(Range(Digit0, Digit9))] == [Bracket(Range(Digit0, Digit9))];
    }
  }

  /** `[\.\*]` is one BRACKET holding `.` and `*`. */
  lemma EscapedChoices()
    ensures Compile([OpenBracket, Backslash, Dot, Backslash, StarMark, CloseBracket])
         == Success(Regex(Root([Bracket([Dot, StarMark])]), true))
  {
    var ns := [Bracket([Dot, StarMark])];
    assert Unparse.RenderAll(ns) == [OpenBracket, Backslash, Dot, Backslash, StarMark, CloseBracket] by {
      var items := Unparse.Escaped([Dot, StarMark]);
      assert items == [Unparse.Esc(Dot), Unparse.Esc(StarMark)];
      assert items[1..][1..] == [];
      assert Unparse.BodyText(items[1..]) == Unparse.ItemText(items[1]) + Unparse.BodyText(items[1..][1..]);
      assert Unparse.BodyText(items) == Unparse.ItemText(items[0]) + Unparse.BodyText(items[1..]);
      assert ns[1..] == [];
      assert Unparse.RenderAll(ns) == Unparse.Render(ns[0]) + Unparse.RenderAll(ns[1..]);
    }
    Unparse.ParseRender(ns);
  }

  /** `ab*` quantifies only the `b`. */
  lemma QuantifierScope()
    ensures Compile([LetterA, LetterB, StarMark]) == Success(Regex(Root([Char(LetterA), Star(Char(LetterB))]), true))
  {
    var ns := [Char(LetterA), Star(Char(LetterB))];
    assert Unparse.RenderAll(ns) == [LetterA, LetterB, StarMark] by {
      assert ns[1..] == [Star(Char(LetterB))] && ns[1..][1..] == [];
      assert Unparse.RenderAll(ns[1..]) == Unparse.Render(ns[1]) + Unparse.RenderAll(ns[1..][1..]);
      assert Unparse.RenderAll(ns) == Unparse.Render(ns[0]) + Unparse.RenderAll(ns[1..]);
    }
    Unparse.ParseRender(ns);
  }

  /** With a zero bound, the tree of `ab*` always yields exactly `a`. */
  lemma ZeroBoundStar(draws: seq<nat>)
    ensures Generate(Root([Char(LetterA), Star(Char(LetterB))]), 0, draws) == Success(Gen([LetterA], Tail(draws)))
  {
    var ns := [Char(LetterA), Star(Char(LetterB))];
    var e: seq<CodePoint> := [];
    assert GenerateAll(ns[1..], 0, draws) == Success(Gen(e, Tail(draws))) by {
      assert Head(draws) % 1 == 0;
      assert Generate(ns[1], 0, draws) == Success(Gen(e, Tail(draws)));
      assert ns[1..][1..] == [];
      assert GenerateAll(ns[1..][1..], 0, Tail(draws)) == Success(Gen(e, Tail(draws)));
      assert e + e == e;
    }
    assert Generate(ns[0], 0, draws) == Success(Gen([LetterA], draws));
    assert [LetterA] + e == [LetterA];
    assert GenerateAll(ns, 0, draws) == Success(Gen([LetterA], Tail(draws)));
  }

  /** An escaped `]` does not continue a bracket: in `[\]]` the first `]`
      closes it, leaving the body `\`, which has nothing to escape. */
  lemma EscapedCloseBracket()
    ensures Compile([OpenBracket, Backslash, CloseBracket, CloseBracket]) == Failure(MissingEscaped)
  {
    var p := [OpenBracket, Backslash, CloseBracket, CloseBracket];
    var e: seq<Node> := [];
    assert p == [OpenBracket] + [Backslash] + [CloseBracket] + [CloseBracket];
    Text.StripTrimmed(p);
    ParseClosedBracket([Backslash], [CloseBracket], e);
  }

  /** `*abc` has nothing for the `*` to repeat. */
  lemma LeadingQuantifier()
    ensures Compile([StarMark, LetterA, LetterB, LetterC]) == Failure(NothingToRepeat)
  {
    Text.StripTrimmed([StarMark, LetterA, LetterB, LetterC]);
  }

  /** The wildcard yields one code point up to 255, control characters included. */
  lemma WildcardRange(draws: seq<nat>)
    ensures |Generate(Any, 0, draws).value.out| == 1
    ensures Generate(Any, 0, draws).value.out[0] <= 255
    ensures Generate(Any, 0, [7]).value.out == [7]
  {
  }

  /** Whitespace around a pattern is ignored, and a blank pattern is compiled
      but not matched (space, tab, space). */
  lemma BlankPattern()
    ensures Compile([0x20, 0x09, 0x20]) == Success(Regex(Root([]), false))
  {
  }
}

=== FILE: results.dfy ===
/** Optional and success-or-error values: the parser's and the generator's
    exceptions become `Failure` results. */
module Results {

  datatype Option<+T> = None | Some(value: T)

  datatype Result<+T, +E> = Success(value: T) | Failure(error: E) {

    predicate IsFailure() {
      Failure?
    }

    function PropagateFailure<U>(): Result<U, E>
      requires Failure?
    {
      Failure(error)
    }

    function Extract(): T
      requires Success?
    {
      value
    }
  }
}

=== FILE: text.dfy ===
/** Python's `str.strip()` with no argument, applied to the pattern first (regfuz.py:28). */
module Text {
  import opened RegexTree

  /** The characters for which Python's `str.isspace()` holds. */
  predicate IsSpace(c: CodePoint)
  {
    || (0x09 <= c <= 0x0D)
    || (0x1C <= c <= 0x20)
    || c == 0x85 || c == 0xA0 || c == 0x1680
    || (0x2000 <= c <= 0x200A)
    || c == 0x2028 || c == 0x2029 || c == 0x202F || c == 0x205F || c == 0x3000
  }

  /** Neither the first nor the last character is whitespace. */
  predicate Trimmed(s: seq<CodePoint>)
  {
    s == [] || (!IsSpace(s[0]) && !IsSpace(s[|s| - 1]))
  }

  predicate AllSpace(s: seq<CodePoint>)
  {
    forall k :: 0 <= k < |s| ==> IsSpace(s[k])
  }

  /** The number of whitespace characters that open `s`. */
  function LeadingSpace(s: seq<CodePoint>): (n: nat)
    ensures n <= |s|
    ensures forall k :: 0 <= k < n ==> IsSpace(s[k])
    ensures n < |s| ==> !IsSpace(s[n])
  {
    if s == [] || !IsSpace(s[0]) then 0
    else
      var n := 1 + LeadingSpace(s[1..]);
      assert forall k :: 1 <= k < n ==> s[k] == s[1..][k - 1];
      n
  }

  /** The number of whitespace characters that close `s`. */
  function TrailingSpace(s: seq<CodePoint>): (n: nat)
    ensures n <= |s|
    ensures forall k :: |s| - n <= k < |s| ==> IsSpace(s[k])
    ensures n < |s| ==> !IsSpace(s[|s| - n - 1])
  {
    if s == [] || !IsSpace(s[|s| - 1]) then 0
    else
      var n := 1 + TrailingSpace(s[..|s| - 1]);
      assert forall k :: |s| - n <= k < |s| - 1 ==> s[k] == s[..|s| - 1][k];
      n
  }

  /** `s` without its leading and trailing whitespace: the result is the
      slice of `s` that starts at its first non-space character and ends at
      its last one. */
  function Strip(s: seq<CodePoint>): (r: seq<CodePoint>)
    ensures Trimmed(r)
    ensures LeadingSpace(s) + |r| <= |s| && r == s[LeadingSpace(s)..LeadingSpace(s) + |r|]
    ensures forall k :: 0 <= k < |s| && !(LeadingSpace(s) <= k < LeadingSpace(s) + |r|) ==> IsSpace(s[k])
    ensures r == [] <==> AllSpace(s)
  {
    var a := LeadingSpace(s);
    if a == |s| then []
    else
      var b := TrailingSpace(s);
      assert a < |s| - b;
      s[a..|s| - b]
  }

  /** Stripping a pattern with no whitespace at either end changes nothing. */
  lemma StripTrimmed(s: seq<CodePoint>)
    requires Trimmed(s)
    ensures Strip(s) == s
  {
  }

  /** Stripping twice is stripping once. */
  lemma StripIdempotent(s: seq<CodePoint>)
    ensures Strip(Strip(s)) == Strip(s)
  {
    StripTrimmed(Strip(s));
  }
}

=== FILE: tree.dfy ===
/**
  The parse tree shared by the parser and the generator (regfuz.py:10-18).
  The source has two node classes dispatched on a name string; here the six
  names become the constructors of one closed datatype.
 */
module RegexTree {

  /** A Unicode code point, the unit a Python `str` is made of. */
  type CodePoint = c: int | 0 <= c < 0x11_0000

  /** Characters with a meaning at the top level of a pattern, or inside a bracket body. */
  const OpenBracket: CodePoint := 0x5B   // [
  const CloseBracket: CodePoint := 0x5D  // ]
  const StarMark: CodePoint := 0x2A      // *
  const PlusMark: CodePoint := 0x2B      // +
  const Dot: CodePoint := 0x2E           // .
  const Backslash: CodePoint := 0x5C     // \
  const Dash: CodePoint := 0x2D          // -

  /** The largest code point the wildcard can produce. */
  const AnyMax: CodePoint := 255

  datatype Node =
      /** CHAR: one literal character. */
    | Char(c: CodePoint)
      /** ANY: the wildcard `.`. */
    | Any
      /** BRACKET: the ordered, not deduplicated list of choices of a `[...]`. */
    | Bracket(choices: seq<CodePoint>)
      /** STAR: zero or more repetitions of the one child. */
    | Star(child: Node)
      /** PLUS: one or more repetitions of the one child. */
    | Plus(child: Node)
      /** ROOT: the top-level elements in pattern order. */
    | Root(children: seq<Node>)

  /** What the `Regex` object holds once its constructor returns. */
  datatype Regex = Regex(root: Node, matched: bool)

  /** A node the parser can place below ROOT: ROOT itself never nests, and no
      CHAR holds a character the top-level scan gives another meaning. */
  predicate TopLevel(n: Node)
  {
    match n
    case Char(c) => c !in {OpenBracket, StarMark, PlusMark, Dot}
    case Any => true
    case Bracket(_) => true
    case Star(c) => TopLevel(c)
    case Plus(c) => TopLevel(c)
    case Root(_) => false
  }
}

=== FILE: unparse.dfy ===
/**
  The inverse direction of the parser: writing a tree back out as a pattern.
  Parsing what is written gives the tree back, which pins down what each
  construct of the pattern language means to the parser.
 */
module Unparse {
  import opened Results
  import opened RegexTree
  import opened Parser
  import Text

  /** One construct of a bracket body. */
  datatype Item =
      /** a character standing for itself */
    | Lit(c: CodePoint)
      /** `\c`: the escaped character */
    | Esc(c: CodePoint)
      /** `lo-hi`: an inclusive range */
    | Span(lo: CodePoint, hi: CodePoint)

  /** A construct the sub-parser reads back as itself wherever it stands:
      only `\` may not open a literal or a range. A `-` may: the sub-parser
      looks for `-` only in the character after the current one. */
  predicate ItemOk(it: Item)
  {
    match it
    case Lit(c) => c != Backslash
    case Esc(_) => true
    case Span(lo, _) => lo != Backslash
  }

  /** The first character of a construct's written form. */
  function Lead(it: Item): CodePoint
  {
    match it
    case Lit(c) => c
    case Esc(_) => Backslash
    case Span(lo, _) => lo
  }

  /** A body the sub-parser reads construct by construct: each construct is
      well-formed, and no literal is followed by a construct opening with
      `-` (the two would read as a range). */
  predicate ItemsOk(items: seq<Item>)
  {
    && (forall k :: 0 <= k < |items| ==> ItemOk(items[k]))
    && (forall k :: 0 < k < |items| && items[k - 1].Lit? ==> Lead(items[k]) != Dash)
  }

  function ItemText(it: Item): seq<CodePoint>
  {
    match it
    case Lit(c) => [c]
    case Esc(c) => [Backslash, c]
    case Span(lo, hi) => [lo, Dash, hi]
  }

  /** The bracket body that spells `items`. */
  function BodyText(items: seq<Item>): seq<CodePoint>
  {
    if items == [] then [] else ItemText(items[0]) + BodyText(items[1..])
  }

  /** The characters one construct stands for. */
  function ItemChars(it: Item): seq<CodePoint>
  {
    match it
    case Lit(c) => [c]
    case Esc(c) => [c]
    case Span(lo, hi) => Range(lo, hi)
  }

  /** The characters `items` stand for, in order and with repetitions. */
  function Expand(items: seq<Item>): seq<CodePoint>
  {
    if items == [] then [] else ItemChars(items[0]) + Expand(items[1..])
  }

  /** A body's text opens with its first construct's first character. */
  lemma BodyTextLead(items: seq<Item>)
    requires items != []
    ensures BodyText(items) != [] && BodyText(items)[0] == Lead(items[0])
  {
    assert BodyText(items) == ItemText(items[0]) + BodyText(items[1..]);
  }

  /** The sub-parser reads one construct in front of a text `t`, provided
      neither a literal nor a range starts with `\` (that would be read as
      an escape) and a literal is not followed by `-` (that would be read as
      a range): the construct contributes its own characters, or `t`'s
      error comes through unchanged. */
  lemma ItemStep(it: Item, t: seq<CodePoint>)
    requires ItemOk(it)
    requires it.Lit? ==> t == [] || t[0] != Dash
    ensures ParseBracket(t).Failure? ==> ParseBracket(ItemText(it) + t) == ParseBracket(t)
    ensures ParseBracket(t).Success? ==> ParseBracket(ItemText(it) + t) == Success(ItemChars(it) + ParseBracket(t).value)
  {
    var b := ItemText(it) + t;
    match it
    case Lit(c) =>
      assert b[1..] == t;
    case Esc(c) =>
      assert b[2..] == t;
    case Span(lo, hi) =>
      assert b[3..] == t;
  }

  /** The constructs after the first of a well-formed body form one too,
      and a literal first construct is not followed by a `-` in their text. */
  lemma ItemsTail(items: seq<Item>)
    requires items != [] && ItemsOk(items)
    ensures ItemsOk(items[1..])
    ensures |items| > 1 ==> BodyText(items[1..]) != []
    ensures |items| > 1 && items[0].Lit? ==> BodyText(items[1..])[0] != Dash
  {
    var tail := items[1..];
    assert forall k :: 0 <= k < |tail| ==> tail[k] == items[k + 1];
    if tail != [] {
      BodyTextLead(tail);
      assert items[0].Lit? ==> Lead(items[1]) != Dash;
    }
  }

  /** Bracket literals, escapes and ranges: the sub-parser reads a written body
      back as exactly the characters its constructs stand for, literals and
      escapes in order and each range expanded in place. */
  lemma {:induction false} ParseBracketItems(items: seq<Item>)
    requires ItemsOk(items)
    ensures ParseBracket(BodyText(items)) == Success(Expand(items))
  {
    if items != [] {
      var tail := items[1..];
      ItemsTail(items);
      ParseBracketItems(tail);
      ItemStep(items[0], BodyText(tail));
    }
  }

  /** A body that ends in a lone `\` is rejected. */
  lemma {:induction false} TrailingBackslashFails(items: seq<Item>)
    requires ItemsOk(items)
    ensures ParseBracket(BodyText(items) + [Backslash]) == Failure(MissingEscaped)
  {
    if items != [] {
      var tail := items[1..];
      var t := BodyText(tail) + [Backslash];
      ItemsTail(items);
      TrailingBackslashFails(tail);
      assert items[0].Lit? ==> t[0] != Dash by {
        if tail != [] {
          assert t[0] == BodyText(tail)[0];
        }
      }
      ItemStep(items[0], t);
      assert BodyText(items) + [Backslash] == ItemText(items[0]) + t;
    }
  }

  /** A body that ends in `X-` is rejected, for any `X` but `\` (`-`
      included) that does not complete a range with a literal before it. */
  lemma {:induction false} TrailingDashFails(items: seq<Item>, x: CodePoint)
    requires ItemsOk(items) && x != Backslash
    requires items != [] && items[|items| - 1].Lit? ==> x != Dash
    ensures ParseBracket(BodyText(items) + [x, Dash]) == Failure(IncompleteRange)
  {
    if items == [] {
      assert BodyText(items) + [x, Dash] == [x, Dash];
    } else {
      var tail := items[1..];
      var t := BodyText(tail) + [x, Dash];
      ItemsTail(items);
      assert items[0].Lit? ==> t[0] != Dash by {
        if tail == [] {
          assert t[0] == x && items[0] == items[|items| - 1];
        } else {
          assert t[0] == BodyText(tail)[0];
        }
      }
      assert tail != [] ==> tail[|tail| - 1] == items[|items| - 1];
      TrailingDashFails(tail, x);
      ItemStep(items[0], t);
      assert BodyText(items) + [x, Dash] == ItemText(items[0]) + t;
    }
  }

  /** Every choice list written with escapes only. */
  function Escaped(cs: seq<CodePoint>): (items: seq<Item>)
    ensures |items| == |cs|
    ensures forall k :: 0 <= k < |cs| ==> items[k] == Esc(cs[k])
  {
    if cs == [] then [] else [Esc(cs[0])] + Escaped(cs[1..])
  }

  lemma {:induction false} EscapedBody(cs: seq<CodePoint>)
    ensures ItemsOk(Escaped(cs))
    ensures Expand(Escaped(cs)) == cs
    ensures forall k :: 0 <= k < |BodyText(Escaped(cs))| ==>
              BodyText(Escaped(cs))[k] == Backslash || BodyText(Escaped(cs))[k] in cs
  {
    if cs != [] {
      EscapedBody(cs[1..]);
      assert Escaped(cs)[1..] == Escaped(cs[1..]);
    }
  }

  /** A tree node whose rendering below reads back as itself: a CHAR holds
      no character with a top-level meaning, a BRACKET holds no `]` (its
      choices are written escaped, and even an escaped `]` closes the
      bracket), and ROOT does not nest. Brackets whose choices include `]`,
      such as the one `[A-z]` gives, are parsed all the same; they are just
      not written back by `Render`. */
  predicate Printable(n: Node)
  {
    match n
    case Char(c) => c !in {OpenBracket, StarMark, PlusMark, Dot}
    case Any => true
    case Bracket(cs) => CloseBracket !in cs
    case Star(c) => Printable(c)
    case Plus(c) => Printable(c)
    case Root(_) => false
  }

  /** The pattern text of one top-level element; quantifiers are postfix. */
  function Render(n: Node): seq<CodePoint>
  {
    match n
    case Char(c) => [c]
    case Any => [Dot]
    case Bracket(cs) => [OpenBracket] + BodyText(Escaped(cs)) + [CloseBracket]
    case Star(c) => Render(c) + [StarMark]
    case Plus(c) => Render(c) + [PlusMark]
    case Root(cs) => RenderAll(cs)
  }

  function RenderAll(ns: seq<Node>): seq<CodePoint>
  {
    if ns == [] then [] else Render(ns[0]) + RenderAll(ns[1..])
  }

  /** Scanning a written bracket: its escaped body reads back as the choice list. */
  lemma ParseRenderBracket(cs: seq<CodePoint>, post: seq<CodePoint>, children: seq<Node>)
    requires CloseBracket !in cs
    ensures ParseFrom(Render(Bracket(cs)) + post, children) == ParseFrom(post, children + [Bracket(cs)])
  {
    var items := Escaped(cs);
    var body := BodyText(items);
    EscapedBody(cs);
    ParseBracketItems(items);
    assert forall k :: 0 <= k < |body| ==> body[k] != CloseBracket;
    ParseClosedBracket(body, post, children);
  }

  /** A `*` or `+` after an element wraps that element in place. */
  lemma QuantifierStep(n: Node, star: bool, post: seq<CodePoint>, children: seq<Node>)
    ensures ParseFrom([if star then StarMark else PlusMark] + post, children + [n])
         == ParseFrom(post, children + [if star then Star(n) else Plus(n)])
  {
    var rest := [if star then StarMark else PlusMark] + post;
    assert rest[1..] == post;
    assert (children + [n])[..|children|] == children;
  }

  /** Scanning the text of one element appends exactly that element; `a**`
      nests as STAR(STAR(a)). */
  lemma {:induction false} ParseRenderNode(n: Node, post: seq<CodePoint>, children: seq<Node>)
    requires Printable(n)
    ensures ParseFrom(Render(n) + post, children) == ParseFrom(post, children + [n])
  {
    match n
    case Char(c) =>
      assert (Render(n) + post)[1..] == post;
    case Any =>
      assert (Render(n) + post)[1..] == post;
    case Bracket(cs) =>
      ParseRenderBracket(cs, post, children);
    case Star(c) =>
      assert Render(n) + post == Render(c) + ([StarMark] + post);
      ParseRenderNode(c, [StarMark] + post, children);
      QuantifierStep(c, true, post, children);
    case Plus(c) =>
      assert Render(n) + post == Render(c) + ([PlusMark] + post);
      ParseRenderNode(c, [PlusMark] + post, children);
      QuantifierStep(c, false, post, children);
  }

  lemma {:induction false} ParseRenderAll(ns: seq<Node>, post: seq<CodePoint>, children: seq<Node>)
    requires forall k :: 0 <= k < |ns| ==> Printable(ns[k])
    ensures ParseFrom(RenderAll(ns) + post, children) == ParseFrom(post, children + ns)
  {
    if ns == [] {
      assert RenderAll(ns) + post == post;
      assert children + ns == children;
    } else {
      assert RenderAll(ns) + post == Render(ns[0]) + (RenderAll(ns[1..]) + post);
      ParseRenderNode(ns[0], RenderAll(ns[1..]) + post, children);
      ParseRenderAll(ns[1..], post, children + [ns[0]]);
      assert children + [ns[0]] + ns[1..] == children + ns;
    }
  }

  /** Round trip: a list of printable elements, written out with no
      whitespace at either end, compiles back to a ROOT holding exactly
      that list, matched iff the list is non-empty. */
  lemma ParseRender(ns: seq<Node>)
    requires forall k :: 0 <= k < |ns| ==> Printable(ns[k])
    requires Text.Trimmed(RenderAll(ns))
    ensures Compile(RenderAll(ns)) == Success(Regex(Root(ns), ns != []))
  {
    var none: seq<CodePoint> := [];
    var e: seq<Node> := [];
    assert ParseFrom(RenderAll(ns), e) == Success(ns) by {
      ParseRenderAll(ns, none, e);
      assert RenderAll(ns) + none == RenderAll(ns);
      assert e + ns == ns;
    }
    CompileTrimmed(RenderAll(ns), ns);
  }
}
